=== FILE: README.md ===
# AI reading assistant: calendar tools, request shaping and page state

This project models the parts of the AI reading assistant that hold rules of their own, and proves properties of them in Dafny:

- **Calendar agent tools** (`backend/calendar_agent/calendar_agent_tools.py`):
  - end-time clamping by grain;
  - re-zoning a parsed wall-clock time;
  - picking the timezone token out of a free-text question;
  - the 30-minute availability check;
  - building a new event: defaulting the end, the required-field check, the attendee list and the description;
  - choosing which event `delete_meeting` removes.
- **Backend request shaping** (`backend/main.py`):
  - the action code to instruction mapping;
  - the prompt sent to the model;
  - PDF versus plain-text input;
  - how the model's HTTP reply becomes the `/chat` reply, including the 429 short-circuit;
  - the one-message-per-file reply of `/upload`.
- **Browser pages**, one class each: the flash-card list page (`FlashCardsPage.ListPage`) with the shared `localStorage` (`FlashCardsPage.SharedStore`), the multi-file upload page (`UploadPage.UploadSession`), the summarise page (`HomePage.SummarizePage`) and the calendar-question page (`SchedulePage.CalendarPage`).

Modelling conventions:

- Times are integer wall-clock seconds in the datetime's own zone or offset, and strings are `seq<char>`. Python adds a `timedelta` to a zone-aware datetime on its wall clock, so `start + 1800` is exactly Python's sum even across a daylight-saving change. The list call, a parameter, turns the wall-clock bounds into real instants.
- The Google Calendar calls, JSON decoding, ISO parsing, ZoneInfo lookup, fuzzy time parsing, PDF page text and UTF-8 decoding are parameters of the operations that use them.
- Every page handler runs to completion. The outcomes of the requests it awaits are parameters (`Outcome<T> = Ok(T) | Fail`, where `Ok` means that `fetch` and `response.json()` both resolved, whatever the HTTP status).
- Each page records the requests it sends in a `requests` field. This is how the contracts say "no request is sent" or "exactly one refetch".
- The `copied` badge timer of the upload page is an explicit step (`CopyTimerFires`).

Behaviour of the code that is easy to miss:

- The spinner is not cleared on every path. The summarise page leaves `loading` on when no file is chosen. The upload page leaves it on when the question request fails. The calendar page leaves it on for a non-ok status or a thrown error.
- A new file selection replaces the tracked files wholesale; nothing is appended. Asking a question is not guarded by a completed upload.
- `schedule_meeting` never splits a string of attendees on commas. `isinstance(x, str) & len(x) > 1` groups as `(isinstance(x, str) & len(x)) > 1`, whose left side is 0 or 1. A string value is therefore iterated character by character (`CalendarTools.SplitGuard`, `CalendarTools.Elements`).
- `delete_meeting` parses `start_time` before its required-field check. A missing or empty start therefore raises instead of returning the error message.

## Model

| member | source | states |
|---|---|---|
| `CalendarTools.ClampEndTime` | backend/calendar_agent/calendar_agent_tools.py:65-73 | for "hour", "minute" or "day" the end is after the start and at most one day after it; the end differs from the parsed one only for those three grains |
| `CalendarTools.ClampEndTimeByGrain` | backend/calendar_agent/calendar_agent_tools.py:65-73 | "hour", "minute" and "day" give start + 3600, + 60 and + 86400 wall-clock seconds (a calendar day, 23 or 25 real hours across a daylight-saving change) whatever the parsed end is, always after the start; any other grain returns the parsed end unchanged |
| `CalendarTools.ForceLocalTime` | backend/calendar_agent/calendar_agent_tools.py:59-62 | the result has the parsed wall-clock fields and exactly the requested zone |
| `CalendarTools.ForceLocalTimeDiscardsOffset` | backend/calendar_agent/calendar_agent_tools.py:59-62 | inputs with the same wall-clock time and different offsets give the same datetime; re-zoning through any intermediate zone equals re-zoning once to the last zone |
| `PyText.Words` | backend/calendar_agent/calendar_agent_tools.py:144 | every token of `input.split()` is non-empty and contains no whitespace |
| `PyText.WordsKeepEveryOtherCharacter` | backend/calendar_agent/calendar_agent_tools.py:144 | the tokens, joined back together, are the input with only its whitespace removed |
| `PyText.WordsOfWord` | backend/calendar_agent/calendar_agent_tools.py:144 | a non-empty string without whitespace splits into exactly itself |
| `PyText.WordsOfJoin` | backend/calendar_agent/calendar_agent_tools.py:144 | a whitespace character separates tokens: splitting `a`, a space, `b` gives the tokens of `a` followed by those of `b`, so tokens are the maximal non-space runs |
| `PyText.RStrip` | backend/calendar_agent/calendar_agent_tools.py:147 | `rstrip` returns a prefix of its input that does not end in a stripped character, and only stripped characters were removed |
| `CalendarTools.ZoneFromTokens` | backend/calendar_agent/calendar_agent_tools.py:142-148 | the zone the loop settles on is always itself an accepted token: it contains "/" and starts with a region prefix, whether it is the default or a stripped question token |
| `CalendarTools.ZoneIsFirstZoneToken` | backend/calendar_agent/calendar_agent_tools.py:144-148 | when token k is the first that contains "/" and starts with America, Europe, Asia, Africa or Australia, the zone is that token with trailing ".,?!;)" stripped, whatever follows it |
| `CalendarTools.ZoneDefaultsToNewYork` | backend/calendar_agent/calendar_agent_tools.py:143-148 | with no such token the zone is "America/New_York" |
| `CalendarTools.ZoneHasNoTrailingPunctuation` | backend/calendar_agent/calendar_agent_tools.py:143-148 | the zone is never empty and never ends in one of ".,?!;)" |
| `CalendarTools.ExtractTimezone` | backend/calendar_agent/calendar_agent_tools.py:143-148 | the loop with its early break returns the zone of the first accepted token (or the default), which is itself an accepted token and never ends in a stripped character |
| `CalendarTools.IsSlotAvailable` | backend/calendar_agent/calendar_agent_tools.py:141-175 | an unknown zone raises and an unparsed time gives the apology; otherwise the window [start, start + 30 min] is listed, and the answer is "available" exactly when that listing succeeds and is empty; otherwise it reports the count and the first event |
| `CalendarTools.ParseIso` | backend/calendar_agent/calendar_agent_tools.py:199 | `fromisoformat` succeeds only on a non-empty string, and then gives the wall-clock time that string denotes |
| `CalendarTools.Elements` | backend/calendar_agent/calendar_agent_tools.py:193-210 | a list of attendees is iterated item by item; a string is iterated one character at a time |
| `CalendarTools.SplitGuard` | backend/calendar_agent/calendar_agent_tools.py:206-207 | the comma-split guard is false for every attendees value |
| `CalendarTools.BuildAttendees` | backend/calendar_agent/calendar_agent_tools.py:209-211 | exactly one `{"email": x}` per iterated element, in order |
| `CalendarTools.FullDescription` | backend/calendar_agent/calendar_agent_tools.py:215 | the description alone when the link is empty; otherwise the description, then the fixed link separator, then the link, and nothing else |
| `CalendarTools.ScheduleMeeting` | backend/calendar_agent/calendar_agent_tools.py:178-230 | bad JSON gives the parse error; a missing end becomes start + 1 h before the required check, and an unparsable start then raises; the required-field error comes only for a missing title, or a missing start when an end was given; with an end given and a truthy start and title an event is always built and inserted; the event carries the title, start, end, zone, attendee list, location and composed description, and is reported scheduled exactly when the insert succeeds |
| `PyText.Lower` | backend/calendar_agent/calendar_agent_tools.py:264 | `str.lower()` keeps the length, leaves no ASCII capital and keeps every other character |
| `CalendarTools.FirstMatch` | backend/calendar_agent/calendar_agent_tools.py:263-264 | the index of the first event whose summary (default "") equals the title case-insensitively; no earlier event matches; None only when no event matches |
| `CalendarTools.FindMatch` | backend/calendar_agent/calendar_agent_tools.py:263-271 | the search loop with early return finds exactly that first match |
| `CalendarTools.DeleteMeeting` | backend/calendar_agent/calendar_agent_tools.py:233-272 | a missing or unparsable start raises before the required check, so the required-field error comes only for a missing title; the window [start, start + 90 min] is searched; only the first matching event is deleted; with no match the no-match reply names the title and start |
| `Server.ActionInstruction` | backend/main.py:45-54 | the three named actions get their own instructions; the quiz instruction is chosen exactly for every other action string, "quiz-me" and "" included |
| `Server.ActionInstructionSeparatesNamedActions` | backend/main.py:47-52 | a named action's instruction differs from the instruction of any other action |
| `Server.FullPrompt` | backend/main.py:56 | the prompt is the file text, then "\n\nUser Question: ", then the instruction, with nothing else |
| `Server.FullPromptSplitsBack` | backend/main.py:56 | for file texts of equal length, equal prompts have equal texts and equal instructions |
| `Server.ExtractPdfText` | backend/main.py:28-34 | the accumulated text is the page texts concatenated in page order |
| `Server.IsHttpError` | backend/main.py:81 | `raise_for_status` raises exactly for a status in the 4xx or 5xx class |
| `Server.ChatWithGemini` | backend/main.py:36-88 | a PDF upload is read through its pages, any other content type as decoded text; the prompt is file text + separator + instruction; a 429 gives the fixed retry message whatever the body; a transport failure, a 4xx/5xx status or a body without the text gives the error reply; otherwise the reply is the model's text |
| `Server.UploadAgent` | backend/main.py:109-117 | status "success" and exactly one ingest message per uploaded file, in upload order |
| `FlashCardsPage.ListPage.constructor` | frontend/app/flash-cards/page.tsx:25-28 | the page starts with an empty list, an empty response, no spinner and `{file: null}` |
| `FlashCardsPage.ListPage.FetchFlashCards` | frontend/app/flash-cards/page.tsx:46-54 | one list request; a reply replaces the collection wholesale and a failure leaves it unchanged; nothing else changes |
| `FlashCardsPage.ListPage.OnStorage` | frontend/app/flash-cards/page.tsx:35-40 | the key "stackUpdated" triggers exactly one refetch and removes that key from the shared store; any other key changes nothing |
| `FlashCardsPage.ListPage.HandleChange` | frontend/app/flash-cards/page.tsx:56-73 | a file input with a file sets `file` to the first file; any other input sets only its named field; other fields are kept |
| `FlashCardsPage.ListPage.HandleSubmit` | frontend/app/flash-cards/page.tsx:75-103 | with no file there is no request; otherwise one create request carrying the file, then one refetch only when the create succeeded; the spinner is off and the response empty afterwards on every path |
| `FlashCardsPage.ListPage.HandleDeleteStack` | frontend/app/flash-cards/page.tsx:105-117 | one delete request for the id; a refetch follows only a successful reply; on failure the collection is untouched |
| `UploadPage.BuildUploadBody` | frontend/app/upload/page.tsx:36-39 | the body holds every selected file, in order, each under "files" |
| `UploadPage.UploadSession.constructor` | frontend/app/upload/page.tsx:11-17 | the page starts not uploaded, not loading, not copied, with no files and an empty question |
| `UploadPage.UploadSession.HandleChangeRequest` | frontend/app/upload/page.tsx:19-27 | editing changes only the named form field |
| `UploadPage.UploadSession.HandleChangeUpload` | frontend/app/upload/page.tsx:29-51 | `uploaded` ends true exactly when the upload succeeded; a non-null selection replaces the file list wholesale, and a null one keeps it; one upload request carries every selected file in order |
| `UploadPage.UploadSession.HandleSubmitAsk` | frontend/app/upload/page.tsx:53-71 | one ask request with the form state; the previous answer is not cleared; a reply sets the answer and stops the spinner; a failure leaves the spinner on and the answer unchanged |
| `UploadPage.UploadSession.HandleCopy` | frontend/app/upload/page.tsx:73-83 | after a resolved clipboard write of rendered text, `copied` is true and a reset is due 2000 ms later; otherwise nothing changes |
| `UploadPage.UploadSession.CopyTimerFires` | frontend/app/upload/page.tsx:78-80 | the first scheduled pending timer fires and `copied` becomes false |
| `HomePage.SummarizePage.constructor` | frontend/app/page.tsx:10-15 | the page starts with no file, action "" and an empty response |
| `HomePage.SummarizePage.HandleChange` | frontend/app/page.tsx:19-37 | a file input with a file replaces the file with the first one; other inputs (the action select) set only their named field |
| `HomePage.SummarizePage.HandleSubmit` | frontend/app/page.tsx:39-67 | the response is cleared and the spinner turned on first; with no file there is no request and the spinner stays on; otherwise the body is exactly the file and the action, a reply sets the response, a failure leaves it "", and the spinner is off |
| `SchedulePage.CalendarPage.constructor` | frontend/app/schedule/page.tsx:10-14 | the page starts with an empty question, an empty response and no spinner |
| `SchedulePage.CalendarPage.HandleChange` | frontend/app/schedule/page.tsx:16-22 | editing changes only the named form field |
| `SchedulePage.CalendarPage.HandleSubmit` | frontend/app/schedule/page.tsx:24-45 | one request whose body is the form state; the spinner goes off only when an ok body was read, and the response is set only when that body has an output; a non-ok status or a throw leaves the spinner on and the response "" |

## Left out

- Google Calendar service construction, OAuth and the token file (`get_calendar_service`) are not modelled. The list, insert and delete calls are parameters. A failure of `get_calendar_service` is caught only in `is_slot_available`, where it is the `None` of the list call. In `schedule_meeting` and `delete_meeting` it propagates, and that case is not modelled.
- `get_current_local_time`, `get_current_day`, `get_current_year`, `extract_event_title` and `get_calendar_events` are not modelled. They only read the clock, call the model, or reformat API results with `strftime`.
- The reply strings of the calendar tools are reply constructors. `strftime` formatting, the text of caught exceptions and the `isoformat` text of a defaulted end (`DefaultEnd` holds the wall-clock time) are not modelled.
- `CalendarTools.IsSlotAvailable`: the busy reply carries the count and the first event's id and summary, but not the first event's `start` and `end` objects that the message also interpolates.
- `CalendarTools.IsSlotAvailable`: the window is 30 wall-clock minutes of the resolved zone. Its real length across a daylight-saving change (90 minutes for 01:45 on 3 November 2024 in America/New_York) follows from the zone rules, which are not modelled.
- `CalendarTools.ScheduleMeeting`: the scheduled reply carries the event body but not the `htmlLink` of the created event that the message also interpolates.
- `CalendarTools.ScheduleMeeting`: JSON `null` or non-string values for `timezone`, `location`, `description` or `attendees_list` are not modelled. A null `timezone` would put `None` into the event's `timeZone`; a null location or description would be rendered as "None", and a null attendee list raises on `len`. Absent keys are folded into their defaults. A null `conference_link` is falsy, so it behaves exactly like `""` and is folded into `""`; a non-string link is not modelled.
- `CalendarTools.ScheduleMeeting`: JSON that decodes to something other than an object, which makes `params.get` raise, is not modelled. Neither is a non-string `start_time`, `end_time` or `event_title`, for which `fromisoformat` raises a TypeError or a non-string title reaches the event. `params` is either undecodable JSON or an object whose time and title fields are strings or absent.
- `CalendarTools.DeleteMeeting`: JSON that decodes to something other than an object, which makes `params.get` raise, is not modelled. Neither is a non-string `start_time` (`fromisoformat` raises a TypeError) or a non-string `event_title` (`.lower()` raises). `params` is either undecodable JSON or an object whose start and title fields are strings or absent.
- `PyText.Lower` lower-cases ASCII letters only; Python's full Unicode case mapping is not modelled.
- `ZoneInfo` lookup, the fuzzy date parser and `datetime.fromisoformat` are parameters (`zoneExists`, `parsedStart`, `fromIso`). `datetime.now(tz)`, the parser's default for fields the question leaves out, is folded into `parsedStart`.
- The `/calendar` handler is not modelled. It wraps the question in a prompt that adds the fixed timezone "America/New_York" and the current date from `datetime.now()`, passes that prompt to the agent and returns the agent's result; an exception becomes `{"error": str(e)}`.
- The `/upload/ask` handler is not modelled. It passes the question to the retrieval graph and returns the graph's answer.
- `Server.ChatWithGemini`: the error reply is `Error` without the text `str(e)` of the caught exception.
- The LLM, LangChain and vector-store pipelines (`flash_card_agent.py`, `upload_agent.py`, `calendar_agent.py`, `llm_config.py`) are not modelled. Document ingestion is the `ingest` parameter of `Server.UploadAgent`.
- PDF page extraction and UTF-8 decoding are inputs of `Server.ChatWithGemini`. Exceptions raised by `ingest` in `/upload` are not modelled.
- `FlashCardsPage.ListPage.HandleSubmit`, `FlashCardsPage.ListPage.HandleDeleteStack` and `FlashCardsPage.ListPage.OnStorage` apply the refetch outcome inline. In the source the refetch is not awaited and may complete later. Async interleaving, unmounting and out-of-order completion are not modelled.
- A reply body whose expected field is missing sets the home and upload pages' response to `undefined`. A list reply that is not an array is stored as the collection anyway. The model's `Ok` carries a well-formed value.
- The summarise page's copy button is the same code as the upload page's `HandleCopy` and is not modelled twice.
- `SchedulePage.CalendarPage.HandleSubmit`: `OkBody(None)` stands for an ok body without a `response` object, where reading `.output` throws after the spinner was turned off and the response stays "". An ok body whose `response` object lacks `output` sets the response to `undefined`; the model has no separate case for that.
- `UploadPage.UploadSession.CopyTimerFires`: pending copy timers fire in the order they were scheduled. This is their due-time order when copies happen at non-decreasing times; `now` is not constrained between calls.
- Rendering, markup and the navigation bar (`nav.tsx`) are not modelled.
- The deck study page and the deck edit page are not modelled. Writing the "stackUpdated" key happens only outside the modelled pages; the list page only listens for it.
- The ORM and pydantic declarations are not modelled; only the stack summary record shape is used.

=== FILE: calendar_tools.dfy ===
/**
 * The self-contained rules inside the calendar agent's tools: end-time
 * clamping, re-zoning a parsed wall-clock time, picking a timezone out of a
 * question, checking a 30-minute slot, building a new event, and picking the
 * event to delete. Times are integer wall-clock seconds in the datetime's own
 * zone or offset: adding a `timedelta` to a zone-aware datetime advances its
 * wall clock, so `start + SlotSeconds` is exactly Python's sum. The Google
 * Calendar calls (which turn wall-clock times into real instants), JSON
 * decoding and ISO parsing are parameters.
 */
module CalendarTools {
  import opened Options
  import opened PyText

  const MinuteSeconds: int := 60
  const HourSeconds: int := 60 * MinuteSeconds
  const DaySeconds: int := 24 * HourSeconds

  /** Length of the slot `is_slot_available` checks. */
  const SlotSeconds: int := 30 * MinuteSeconds
  /** Length of the window `delete_meeting` searches. */
  const DeleteWindowSeconds: int := 90 * MinuteSeconds

  const DefaultTimezone: string := "America/New_York"
  const TrailingPunctuation: set<char> := {'.', ',', '?', '!', ';', ')'}

  // ---------------------------------------------------------------------
  // clamp_end_time_if_needed

  /**
   * For a recognised grain the end is one grain after the start, whatever
   * end the parser produced; for any other grain the parser's end is kept.
   */
  function ClampEndTime(start: int, end: int, grain: string): (r: int)
    ensures grain in {"hour", "minute", "day"} ==> start < r <= start + DaySeconds
    ensures r != end ==> grain in {"hour", "minute", "day"}
  {
    if grain == "hour" then start + HourSeconds
    else if grain == "minute" then start + MinuteSeconds
    else if grain == "day" then start + DaySeconds
    else end
  }

  lemma ClampEndTimeByGrain(start: int, end: int, grain: string)
    ensures grain == "hour" ==> ClampEndTime(start, end, grain) == start + 3600
    ensures grain == "minute" ==> ClampEndTime(start, end, grain) == start + 60
    ensures grain == "day" ==> ClampEndTime(start, end, grain) == start + 86400
    ensures grain !in {"hour", "minute", "day"} ==> ClampEndTime(start, end, grain) == end
    ensures grain in {"hour", "minute", "day"} ==>
      forall other :: ClampEndTime(start, other, grain) == ClampEndTime(start, end, grain) > start
  {
  }

  // ---------------------------------------------------------------------
  // force_local_time

  /** The wall-clock fields of a parsed datetime. */
  datatype WallClock = WallClock(year: int, month: int, day: int, hour: int, minute: int, second: int, microsecond: int)

  /** The tzinfo of a datetime: a fixed UTC offset or an IANA zone key. */
  datatype Zone = Offset(seconds: int) | Named(key: string)

  datatype DateTime = DateTime(wall: WallClock, zone: Option<Zone>)

  /** Keep the parsed wall-clock time, drop whatever zone or offset came with it, attach `tz`. */
  function ForceLocalTime(parsed: DateTime, tz: string): (r: DateTime)
    ensures r.wall == parsed.wall
    ensures r.zone == Some(Named(tz))
  {
    DateTime(parsed.wall, None).(zone := Some(Named(tz)))
  }

  /** Inputs that differ only in their offset are re-zoned to the same datetime. */
  lemma ForceLocalTimeDiscardsOffset(a: DateTime, b: DateTime, tz: string, via: string)
    requires a.wall == b.wall
    ensures ForceLocalTime(a, tz) == ForceLocalTime(b, tz)
    ensures ForceLocalTime(ForceLocalTime(a, via), tz) == ForceLocalTime(a, tz)
  {
  }

  // ---------------------------------------------------------------------
  // is_slot_available: the timezone token

  predicate HasZonePrefix(token: string)
  {
    || StartsWith(token, "America") || StartsWith(token, "Europe") || StartsWith(token, "Asia")
    || StartsWith(token, "Africa") || StartsWith(token, "Australia")
  }

  /** A token the loop accepts as a timezone. */
  predicate IsZoneToken(token: string)
  {
    '/' in token && HasZonePrefix(token)
  }

  /**
   * The timezone the loop settles on for a list of tokens. Whichever way it
   * is reached, the zone is itself a token the loop would accept.
   */
  function ZoneFromTokens(tokens: seq<string>): (r: string)
    ensures IsZoneToken(r)
    decreases |tokens|
  {
    if tokens == [] then
      assert DefaultTimezone[7] == '/' && DefaultTimezone[..7] == "America";
      DefaultTimezone
    else if IsZoneToken(tokens[0]) then
      StripKeepsZoneToken(tokens[0]);
      RStrip(tokens[0], TrailingPunctuation)
    else ZoneFromTokens(tokens[1..])
  }

  /**
   * The zone is the first accepted token with its trailing punctuation
   * stripped; tokens after it play no part.
   */
  lemma {:induction false} ZoneIsFirstZoneToken(tokens: seq<string>, k: nat)
    requires k < |tokens| && IsZoneToken(tokens[k])
    requires forall j :: 0 <= j < k ==> !IsZoneToken(tokens[j])
    ensures ZoneFromTokens(tokens) == RStrip(tokens[k], TrailingPunctuation)
    decreases k
  {
    if k > 0 {
      ZoneIsFirstZoneToken(tokens[1..], k - 1);
    }
  }

  /** Without an accepted token the zone is the default. */
  lemma {:induction false} ZoneDefaultsToNewYork(tokens: seq<string>)
    requires forall j :: 0 <= j < |tokens| ==> !IsZoneToken(tokens[j])
    ensures ZoneFromTokens(tokens) == DefaultTimezone
    decreases |tokens|
  {
    if tokens != [] {
      ZoneDefaultsToNewYork(tokens[1..]);
    }
  }

  /** A prefix without '/' of a token also prefixes any prefix of it that keeps a '/' of the token. */
  lemma PrefixBeforeSlash(p: string, token: string, r: string, i: int)
    requires p <= token && r <= token && 0 <= i < |r| && token[i] == '/' && '/' !in p
    ensures p <= r
  {
    assert |p| <= i;
    assert p == token[..|p|] == r[..|p|];
  }

  /**
   * Stripping keeps the '/' of an accepted token, and the region prefix in
   * front of it, so the stripped token is still accepted.
   */
  lemma StripKeepsZoneToken(token: string)
    requires IsZoneToken(token)
    ensures IsZoneToken(RStrip(token, TrailingPunctuation))
  {
    var r := RStrip(token, TrailingPunctuation);
    var i :| 0 <= i < |token| && token[i] == '/';
    assert token[i] !in TrailingPunctuation;
    assert r[i] == '/';
    if StartsWith(token, "America") {
      PrefixBeforeSlash("America", token, r, i);
    } else if StartsWith(token, "Europe") {
      PrefixBeforeSlash("Europe", token, r, i);
    } else if StartsWith(token, "Asia") {
      PrefixBeforeSlash("Asia", token, r, i);
    } else if StartsWith(token, "Africa") {
      PrefixBeforeSlash("Africa", token, r, i);
    } else {
      PrefixBeforeSlash("Australia", token, r, i);
    }
  }

  /** The zone never ends in one of the stripped characters. */
  lemma {:induction false} ZoneHasNoTrailingPunctuation(tokens: seq<string>)
    ensures ZoneFromTokens(tokens) != []
    ensures ZoneFromTokens(tokens)[|ZoneFromTokens(tokens)| - 1] !in TrailingPunctuation
    decreases |tokens|
  {
    if tokens == [] {
      assert DefaultTimezone[|DefaultTimezone| - 1] == 'k';
    } else if IsZoneToken(tokens[0]) {
    } else {
      ZoneHasNoTrailingPunctuation(tokens[1..]);
    }
  }

  /** The loop at the head of `is_slot_available`. */
  method ExtractTimezone(input: string) returns (timezone: string)
    ensures timezone == ZoneFromTokens(Words(input))
    ensures IsZoneToken(timezone)
    ensures timezone != [] && timezone[|timezone| - 1] !in TrailingPunctuation
  {
    timezone := DefaultTimezone;
    var tokens := Words(input);
    var i := 0;
    while i < |tokens|
      invariant 0 <= i <= |tokens|
      invariant timezone == DefaultTimezone
      invariant ZoneFromTokens(tokens[i..]) == ZoneFromTokens(tokens)
    {
      var candidate := tokens[i];
      if '/' in candidate && HasZonePrefix(candidate) {
        timezone := candidate;
        timezone := RStrip(candidate, TrailingPunctuation);
        break;
      }
      assert tokens[i..][1..] == tokens[i + 1..];
      i := i + 1;
    }
    ZoneHasNoTrailingPunctuation(tokens);
  }

  // ---------------------------------------------------------------------
  // is_slot_available: the slot check

  /** An event as the Calendar API lists it; `summary` may be absent. */
  datatype CalEvent = CalEvent(id: string, summary: Option<string>)

  /**
   * Lists the events between two wall-clock times of the resolved zone (the
   * API converts them to real instants); None when the call raises.
   */
  type Listing = (int, int) -> Option<seq<CalEvent>>

  datatype SlotReply =
    | UnknownZone              // ZoneInfo(timezone) raises; nothing catches it
    | UnparsedTime             // "Sorry, I couldn't understand the time. ..."
    | CalendarError            // "Calendar error: ..."
    | Available(start: int, timezone: string)
    | Busy(start: int, timezone: string, count: nat, first: CalEvent)

  /**
   * `zoneExists` is ZoneInfo's lookup; `parsedStart` is the wall-clock
   * time, in the resolved zone, that the fuzzy parser reads from `input`
   * (None when it raises).
   */
  method IsSlotAvailable(input: string, zoneExists: string -> bool, parsedStart: Option<int>, listEvents: Listing)
    returns (reply: SlotReply)
    ensures var tz := ZoneFromTokens(Words(input));
      && (!zoneExists(tz) ==> reply == UnknownZone)
      && (zoneExists(tz) && parsedStart.None? ==> reply == UnparsedTime)
      && (zoneExists(tz) && parsedStart.Some? ==>
            var s := parsedStart.value;
            match listEvents(s, s + SlotSeconds)
            case None => reply == CalendarError
            case Some(events) =>
              reply == if events == [] then Available(s, tz) else Busy(s, tz, |events|, events[0]))
    ensures reply.Available? <==>
      && zoneExists(ZoneFromTokens(Words(input)))
      && parsedStart.Some?
      && listEvents(parsedStart.value, parsedStart.value + SlotSeconds) == Some([])
  {
    var timezone := ExtractTimezone(input);
    if !zoneExists(timezone) {
      return UnknownZone;
    }
    if parsedStart.None? {
      return UnparsedTime;
    }
    var startDt := parsedStart.value;
    var endDt := startDt + SlotSeconds;
    var events := listEvents(startDt, endDt);
    if events.None? {
      return CalendarError;
    }
    if events.value == [] {
      reply := Available(startDt, timezone);
    } else {
      reply := Busy(startDt, timezone, |events.value|, events.value[0]);
    }
  }

  // ---------------------------------------------------------------------
  // Shared by schedule_meeting and delete_meeting

  /** Python truthiness of an optional string: None and "" are falsy. */
  predicate Truthy(v: Option<string>)
  {
    v.Some? && v.value != ""
  }

  /**
   * `datetime.fromisoformat(v)`: None (a TypeError) and "" never parse;
   * any other text parses as `fromIso` says.
   */
  function ParseIso(fromIso: string -> Option<int>, v: Option<string>): (r: Option<int>)
    ensures r.Some? ==> Truthy(v)
    ensures Truthy(v) ==> r == fromIso(v.value)
  {
    if Truthy(v) then fromIso(v.value) else None
  }

  // ---------------------------------------------------------------------
  // schedule_meeting

  /** The JSON value under "attendees_list": a list of emails or a single string. */
  datatype Attendees = EmailList(emails: seq<string>) | EmailText(text: string)

  /** What `for email in attendees_list` iterates over: list items, or the characters of a string. */
  function Elements(v: Attendees): (xs: seq<string>)
    ensures v.EmailList? ==> xs == v.emails
    ensures v.EmailText? ==> |xs| == |v.text| && forall i :: 0 <= i < |xs| ==> xs[i] == [v.text[i]]
  {
    match v
    case EmailList(es) => es
    case EmailText(s) => seq(|s|, i requires 0 <= i < |s| => [s[i]])
  }

  /** Python's `True & n` and `False & n` for n >= 0. */
  function BoolAnd(b: bool, n: nat): (r: nat)
    ensures r <= 1
  {
    if b then n % 2 else 0
  }

  /**
   * `isinstance(attendees_list, str) & len(attendees_list) > 1`, which Python
   * groups as `(isinstance(...) & len(...)) > 1`: it never holds.
   */
  function SplitGuard(v: Attendees): (r: bool)
    ensures !r
  {
    var len := match v case EmailList(es) => |es| case EmailText(s) => |s|;
    BoolAnd(v.EmailText?, len) > 1
  }

  datatype Attendee = Attendee(email: string)

  /** The append loop: one `{"email": x}` per element, in order. */
  method BuildAttendees(v: Attendees) returns (attendees: seq<Attendee>)
    ensures |attendees| == |Elements(v)|
    ensures forall i :: 0 <= i < |attendees| ==> attendees[i] == Attendee(Elements(v)[i])
  {
    var items := Elements(v);
    attendees := [];
    var i := 0;
    while i < |items|
      invariant 0 <= i <= |items|
      invariant |attendees| == i
      invariant forall j :: 0 <= j < i ==> attendees[j] == Attendee(items[j])
    {
      attendees := attendees + [Attendee(items[i])];
      i := i + 1;
    }
  }

  const LinkSeparator: string := " | Link: "

  /** The description string: the link is appended only when it is non-empty. */
  function FullDescription(description: string, conferenceLink: string): (r: string)
    ensures conferenceLink == "" ==> r == description
    ensures conferenceLink != "" ==>
      && |r| == |description| + |LinkSeparator| + |conferenceLink|
      && r[..|description|] == description
      && r[|description|..|description| + |LinkSeparator|] == LinkSeparator
      && r[|description| + |LinkSeparator|..] == conferenceLink
  {
    description + (if conferenceLink != "" then LinkSeparator + conferenceLink else "")
  }

  /**
   * The parameters `schedule_meeting` reads. An absent timezone, location,
   * link or description has already been replaced by its default.
   */
  datatype MeetingParams = MeetingParams(
    startTime: Option<string>,
    endTime: Option<string>,
    timezone: string,
    eventTitle: Option<string>,
    attendees: Attendees,
    location: string,
    conferenceLink: string,
    description: string)

  /** The end of a new event: the text given, or the wall-clock time one hour after the parsed start. */
  datatype EventEnd = EndText(text: string) | DefaultEnd(time: int)

  datatype NewEvent = NewEvent(
    summary: string,
    start: string,
    end: EventEnd,
    timezone: string,
    attendees: seq<Attendee>,
    location: string,
    description: string)

  datatype ScheduleReply =
    | BadJson                  // "Error: could not parse JSON input."
    | Raised                   // fromisoformat raised; nothing catches it
    | MissingFields            // "Error: start_time, end_time, and event_title are required."
    | Scheduled(event: NewEvent)
    | InsertFailed(event: NewEvent)

  /**
   * `params` is the decoded JSON (None when it does not decode), `fromIso`
   * parses ISO text, `inserted` says whether the insert call succeeded.
   */
  method ScheduleMeeting(params: Option<MeetingParams>, fromIso: string -> Option<int>, inserted: bool)
    returns (reply: ScheduleReply)
    ensures params.None? ==> reply == BadJson
    ensures params.Some? && !Truthy(params.value.endTime) ==>
      var start := ParseIso(fromIso, params.value.startTime);
      && (start.None? ==> reply == Raised)
      && (start.Some? && !Truthy(params.value.eventTitle) ==> reply == MissingFields)
      && (start.Some? && Truthy(params.value.eventTitle) ==>
            reply.Scheduled? || reply.InsertFailed?)
      && (reply.Scheduled? || reply.InsertFailed? ==> reply.event.end == DefaultEnd(start.value + HourSeconds))
    ensures params.Some? && Truthy(params.value.endTime) ==>
      && (!Truthy(params.value.startTime) || !Truthy(params.value.eventTitle) <==> reply == MissingFields)
      && (reply.Scheduled? || reply.InsertFailed? ==> reply.event.end == EndText(params.value.endTime.value))
    ensures params.Some? && Truthy(params.value.endTime) && Truthy(params.value.startTime) && Truthy(params.value.eventTitle) ==>
      reply.Scheduled? || reply.InsertFailed?
    ensures reply == MissingFields ==>
      params.Some? && (!Truthy(params.value.eventTitle) || (!Truthy(params.value.startTime) && Truthy(params.value.endTime)))
    ensures reply.Scheduled? || reply.InsertFailed? ==>
      var p := params.value;
      && params.Some? && Truthy(p.startTime) && Truthy(p.eventTitle)
      && reply.Scheduled? == inserted
      && reply.event.summary == p.eventTitle.value
      && reply.event.start == p.startTime.value
      && reply.event.timezone == p.timezone
      && |reply.event.attendees| == |Elements(p.attendees)|
      && (forall i :: 0 <= i < |reply.event.attendees| ==> reply.event.attendees[i].email == Elements(p.attendees)[i])
      && reply.event.location == p.location
      && reply.event.description == FullDescription(p.description, p.conferenceLink)
  {
    if params.None? {
      return BadJson;
    }
    var p := params.value;
    var startTime := p.startTime;
    var endTime: Option<EventEnd> := if Truthy(p.endTime) then Some(EndText(p.endTime.value)) else None;
    if !Truthy(p.endTime) {
      var startDt := ParseIso(fromIso, startTime);
      if startDt.None? {
        return Raised;
      }
      endTime := Some(DefaultEnd(startDt.value + HourSeconds));
    }
    if !Truthy(startTime) || endTime.None? || !Truthy(p.eventTitle) {
      return MissingFields;
    }
    if SplitGuard(p.attendees) {
      // The comma split of a string value; the guard above is never true.
      assert false;
    }
    var attendees := BuildAttendees(p.attendees);
    var event := NewEvent(
      p.eventTitle.value, startTime.value, endTime.value, p.timezone,
      attendees, p.location, FullDescription(p.description, p.conferenceLink));
    if inserted {
      reply := Scheduled(event);
    } else {
      reply := InsertFailed(event);
    }
  }

  // ---------------------------------------------------------------------
  // delete_meeting

  /** `event.get('summary', '')`. */
  function SummaryOrEmpty(e: CalEvent): string
  {
    match e.summary
    case Some(s) => s
    case None => ""
  }

  /** The summary equals the title once both are lower-cased. */
  predicate TitleMatches(e: CalEvent, title: string)
  {
    Lower(SummaryOrEmpty(e)) == Lower(title)
  }

  /** The index of the first event whose summary matches the title. */
  function FirstMatch(events: seq<CalEvent>, title: string): (r: Option<nat>)
    ensures r.Some? ==>
      && r.value < |events|
      && TitleMatches(events[r.value], title)
      && forall j :: 0 <= j < r.value ==> !TitleMatches(events[j], title)
    ensures r.None? ==> forall j :: 0 <= j < |events| ==> !TitleMatches(events[j], title)
  {
    if events == [] then None
    else if TitleMatches(events[0], title) then Some(0)
    else match FirstMatch(events[1..], title)
      case None => None
      case Some(i) => Some(i + 1)
  }

  /** The search loop of `delete_meeting`, stopping at the first match. */
  method FindMatch(events: seq<CalEvent>, title: string) returns (found: Option<nat>)
    ensures found == FirstMatch(events, title)
  {
    var lowered := Lower(title);
    var i := 0;
    while i < |events|
      invariant 0 <= i <= |events|
      invariant forall j :: 0 <= j < i ==> !TitleMatches(events[j], title)
    {
      if Lower(SummaryOrEmpty(events[i])) == lowered {
        return Some(i);
      }
      i := i + 1;
    }
    return None;
  }

  datatype DeleteParams = DeleteParams(startTime: Option<string>, timezone: string, eventTitle: Option<string>)

  datatype DeleteReply =
    | DeleteBadJson            // "Error: could not parse JSON input."
    | DeleteRaised             // fromisoformat or the list call raised; nothing catches it
    | DeleteMissingFields      // "Error: start_time and event_title are required."
    | Deleted(title: string, start: string)
    | DeleteFailed             // "Error deleting event: ..."
    | NoMatch(title: string, start: string)

  /**
   * `listEvents` is the list call over [start, start + 90 min], `deleteOk`
   * whether deleting an event id succeeds.
   */
  method DeleteMeeting(params: Option<DeleteParams>, fromIso: string -> Option<int>, listEvents: Listing, deleteOk: string -> bool)
    returns (reply: DeleteReply)
    ensures params.None? ==> reply == DeleteBadJson
    ensures params.Some? ==>
      var p := params.value;
      var start := ParseIso(fromIso, p.startTime);
      && (start.None? ==> reply == DeleteRaised)
      && (start.Some? && !Truthy(p.eventTitle) ==> reply == DeleteMissingFields)
      && (start.Some? && Truthy(p.eventTitle) ==>
            match listEvents(start.value, start.value + DeleteWindowSeconds)
            case None => reply == DeleteRaised
            case Some(events) =>
              match FirstMatch(events, p.eventTitle.value)
              case None => reply == NoMatch(p.eventTitle.value, p.startTime.value)
              case Some(i) =>
                reply == if deleteOk(events[i].id) then Deleted(p.eventTitle.value, p.startTime.value) else DeleteFailed)
    ensures reply == DeleteMissingFields ==> params.Some? && !Truthy(params.value.eventTitle)
    ensures params.Some? && !Truthy(params.value.startTime) ==> reply == DeleteRaised
  {
    if params.None? {
      return DeleteBadJson;
    }
    var p := params.value;
    var startDt := ParseIso(fromIso, p.startTime);
    if startDt.None? {
      return DeleteRaised;
    }
    var endDt := startDt.value + DeleteWindowSeconds;
    if !Truthy(p.startTime) || !Truthy(p.eventTitle) {
      return DeleteMissingFields;
    }
    var events := listEvents(startDt.value, endDt);
    if events.None? {
      return DeleteRaised;
    }
    var found := FindMatch(events.value, p.eventTitle.value);
    match found {
      case None =>
        reply := NoMatch(p.eventTitle.value, p.startTime.value);
      case Some(i) =>
        if deleteOk(events.value[i].id) {
          reply := Deleted(p.eventTitle.value, p.startTime.value);
        } else {
          reply := DeleteFailed;
        }
    }
  }
}

=== FILE: flash_cards_page.dfy ===
/**
 * The flash-card list page: the stack list it shows, its create-from-file
 * form, stack deletion, and the storage listener through which other tabs
 * ask it to refetch. Each handler runs to completion with the outcomes of
 * the requests it awaits given as parameters; the requests it sends are
 * recorded in order.
 */
module FlashCardsPage {
  import opened Options
  import opened WebTypes

  /** One stack of the list endpoint's reply. */
  datatype StackSummary = StackSummary(id: int, name: string, description: Option<string>)

  datatype Request =
    | ListStacks                        // GET /get-flash-cards
    | CreateStack(body: seq<Entry>)     // POST /create-flash-cards
    | DeleteStack(id: int)              // DELETE /delete-flash-cards/{id}

  /** The key another tab writes after changing a stack. */
  const UpdateKey: string := "stackUpdated"

  /** The origin's localStorage, shared by every tab. */
  class SharedStore {
    var items: map<string, string>

    constructor (items: map<string, string>)
      ensures this.items == items
    {
      this.items := items;
    }
  }

  class ListPage {
    var collection: seq<StackSummary>
    var response: string
    var loading: bool
    var formData: map<string, FormValue>
    var requests: seq<Request>
    const store: SharedStore

    /**
     * Between handlers the spinner is off, the response text is empty (no
     * handler ever sets anything else) and the form keeps its "file" field.
     */
    ghost predicate Valid()
      reads this
    {
      !loading && response == "" && "file" in formData
    }

    constructor (store: SharedStore)
      ensures Valid()
      ensures collection == [] && formData == map["file" := Null] && requests == []
      ensures this.store == store
    {
      collection := [];
      response := "";
      loading := false;
      formData := map["file" := Null];
      requests := [];
      this.store := store;
    }

    /**
     * `fetchFlashCards`, also run once on mount: a reply replaces the list
     * wholesale, a failure leaves it as it was.
     */
    method FetchFlashCards(listing: Outcome<seq<StackSummary>>)
      modifies this
      ensures requests == old(requests) + [ListStacks]
      ensures collection == if listing.Ok? then listing.value else old(collection)
      ensures response == old(response) && loading == old(loading) && formData == old(formData)
    {
      requests := requests + [ListStacks];
      match listing {
        case Ok(result) => collection := result;
        case Fail =>
      }
    }

    /**
     * The storage listener: the update key triggers one refetch and is
     * removed from the store; any other key changes nothing.
     */
    method OnStorage(key: string, listing: Outcome<seq<StackSummary>>)
      requires Valid()
      modifies this, store
      ensures Valid()
      ensures key == UpdateKey ==>
        && requests == old(requests) + [ListStacks]
        && collection == (if listing.Ok? then listing.value else old(collection))
        && store.items == old(store.items) - {UpdateKey}
      ensures key != UpdateKey ==>
        requests == old(requests) && collection == old(collection) && store.items == old(store.items)
      ensures formData == old(formData)
    {
      if key == UpdateKey {
        FetchFlashCards(listing);
        store.items := store.items - {UpdateKey};
      }
    }

    /** A file input with a file stores the first file; any other input stores its value under its name. */
    method HandleChange(e: InputEvent)
      requires Valid()
      modifies this
      ensures Valid()
      ensures formData == if PicksFile(e) then old(formData)["file" := FileRef(e.files[0])]
                          else old(formData)[e.name := Text(e.value)]
      ensures collection == old(collection) && requests == old(requests)
    {
      if e.kind == "file" && e.files != [] {
        formData := formData["file" := FileRef(e.files[0])];
      } else {
        formData := formData[e.name := Text(e.value)];
      }
    }

    /**
     * Create a stack from the selected file. Without a file no request is
     * sent; otherwise the list is refetched only when the create request
     * succeeded, and the spinner is off again on every path.
     */
    method HandleSubmit(created: Outcome<()>, listing: Outcome<seq<StackSummary>>)
      requires Valid()
      modifies this
      ensures Valid()
      ensures formData == old(formData)
      ensures !Truthy(old(formData)["file"]) ==>
        requests == old(requests) && collection == old(collection)
      ensures Truthy(old(formData)["file"]) ==>
        var create := CreateStack([Entry("file", AsPart(old(formData)["file"]))]);
        && requests == old(requests) + [create] + (if created.Ok? then [ListStacks] else [])
        && collection == (if created.Ok? && listing.Ok? then listing.value else old(collection))
    {
      response := "";
      loading := true;
      if !Truthy(formData["file"]) {
        loading := false;
        return;
      }
      var data := [Entry("file", AsPart(formData["file"]))];
      requests := requests + [CreateStack(data)];
      if created.Ok? {
        FetchFlashCards(listing);
      }
      loading := false;
    }

    /** Delete a stack; the list is refetched only after a successful reply. */
    method HandleDeleteStack(stackId: int, deleted: Outcome<()>, listing: Outcome<seq<StackSummary>>)
      requires Valid()
      modifies this
      ensures Valid()
      ensures formData == old(formData)
      ensures requests == old(requests) + [DeleteStack(stackId)] + (if deleted.Ok? then [ListStacks] else [])
      ensures collection == if deleted.Ok? && listing.Ok? then listing.value else old(collection)
    {
      requests := requests + [DeleteStack(stackId)];
      if deleted.Ok? {
        FetchFlashCards(listing);
      }
    }
  }
}

=== FILE: home_page.dfy ===
/**
 * The summarise page: pick a document and an action, submit both, and show
 * the model's markdown reply.
 */
module HomePage {
  import opened WebTypes

  datatype Request = Chat(body: seq<Entry>)    // POST /chat, multipart

  class SummarizePage {
    var response: string
    var loading: bool
    var formData: map<string, FormValue>
    var requests: seq<Request>

    /** The form keeps its file and its action, and the action is always text. */
    ghost predicate Valid()
      reads this
    {
      "file" in formData && "action" in formData && formData["action"].Text?
    }

    constructor ()
      ensures Valid()
      ensures response == "" && !loading && requests == []
      ensures formData == map["file" := Null, "action" := Text("")]
    {
      response := "";
      loading := false;
      formData := map["file" := Null, "action" := Text("")];
      requests := [];
    }

    /**
     * A file input with a file replaces the file with the first one; any
     * other input stores its value under its name (the action select sets
     * "action").
     */
    method HandleChange(e: InputEvent)
      requires Valid()
      modifies this
      ensures Valid()
      ensures formData == if PicksFile(e) then old(formData)["file" := FileRef(e.files[0])]
                          else old(formData)[e.name := Text(e.value)]
      ensures response == old(response) && loading == old(loading) && requests == old(requests)
    {
      if e.kind == "file" && e.files != [] {
        formData := formData["file" := FileRef(e.files[0])];
      } else {
        formData := formData[e.name := Text(e.value)];
      }
    }

    /**
     * Submit: the response is cleared and the spinner turned on before the
     * file is checked. Without a file nothing is sent and the spinner stays
     * on. Otherwise the body holds exactly the file and the action; a reply
     * sets the response, and the spinner goes off on both paths.
     */
    method HandleSubmit(outcome: Outcome<string>)
      requires Valid()
      modifies this
      ensures Valid()
      ensures formData == old(formData)
      ensures !Truthy(old(formData)["file"]) ==>
        response == "" && loading && requests == old(requests)
      ensures Truthy(old(formData)["file"]) ==>
        && requests == old(requests) + [Chat([Entry("file", AsPart(old(formData)["file"])),
                                              Entry("action", Str(old(formData)["action"].s))])]
        && !loading
        && response == (if outcome.Ok? then outcome.value else "")
    {
      response := "";
      loading := true;
      if !Truthy(formData["file"]) {
        return;
      }
      var data := [Entry("file", AsPart(formData["file"])), Entry("action", AsPart(formData["action"]))];
      requests := requests + [Chat(data)];
      match outcome {
        case Ok(result) =>
          response := result;
          loading := false;
        case Fail =>
          loading := false;
      }
    }
  }
}

=== FILE: options.dfy ===
/** A value that may be absent: a missing JSON key, a null, a failed parse. */
module Options {
  datatype Option<+T> = None | Some(value: T)
}

=== FILE: py_text.dfy ===
/**
 * The Python `str` builtins the calendar tools rely on, on `seq<char>`:
 * `split()` with no separator, `rstrip(chars)`, `startswith` and `lower()`.
 */
module PyText {

  /** The characters `str.split()` treats as whitespace. */
  predicate IsSpace(c: char)
  {
    || c == ' '
    || ('\t' <= c <= '\r')
    || ('\U{1C}' <= c <= '\U{1F}')
    || c == '\U{85}' || c == '\U{A0}' || c == '\U{1680}'
    || ('\U{2000}' <= c <= '\U{200A}')
    || c == '\U{2028}' || c == '\U{2029}' || c == '\U{202F}' || c == '\U{205F}' || c == '\U{3000}'
  }

  predicate NoSpace(s: string)
  {
    forall i :: 0 <= i < |s| ==> !IsSpace(s[i])
  }

  /** Length of the run of non-space characters that starts `s`. */
  function WordLength(s: string): (n: nat)
    requires s != [] && !IsSpace(s[0])
    ensures 0 < n <= |s| && NoSpace(s[..n])
    ensures n == |s| || IsSpace(s[n])
  {
    if |s| == 1 || IsSpace(s[1]) then 1 else 1 + WordLength(s[1..])
  }

  /** `s.split()`: the maximal runs of non-space characters, in order. */
  function Words(s: string): (ws: seq<string>)
    ensures forall i :: 0 <= i < |ws| ==> ws[i] != [] && NoSpace(ws[i])
    decreases |s|
  {
    if s == [] then []
    else if IsSpace(s[0]) then Words(s[1..])
    else
      var n := WordLength(s);
      [s[..n]] + Words(s[n..])
  }

  /** The characters of `s` that are not whitespace, in order. */
  function NonSpace(s: string): string
  {
    if s == [] then [] else (if IsSpace(s[0]) then [] else [s[0]]) + NonSpace(s[1..])
  }

  function Concat(ws: seq<string>): string
  {
    if ws == [] then [] else ws[0] + Concat(ws[1..])
  }

  lemma {:induction false} NonSpaceAppend(a: string, b: string)
    ensures NonSpace(a + b) == NonSpace(a) + NonSpace(b)
    decreases |a|
  {
    if a == [] {
      assert a + b == b;
    } else {
      assert (a + b)[1..] == a[1..] + b;
      NonSpaceAppend(a[1..], b);
    }
  }

  lemma {:induction false} NonSpaceOfWord(w: string)
    requires NoSpace(w)
    ensures NonSpace(w) == w
    decreases |w|
  {
    if w != [] {
      NonSpaceOfWord(w[1..]);
    }
  }

  /**
   * Splitting loses only whitespace: the words, glued back together, are
   * the input with its whitespace removed.
   */
  lemma {:induction false} WordsKeepEveryOtherCharacter(s: string)
    ensures Concat(Words(s)) == NonSpace(s)
    decreases |s|
  {
    if s == [] {
    } else if IsSpace(s[0]) {
      WordsKeepEveryOtherCharacter(s[1..]);
    } else {
      var n := WordLength(s);
      WordsKeepEveryOtherCharacter(s[n..]);
      assert s == s[..n] + s[n..];
      NonSpaceAppend(s[..n], s[n..]);
      NonSpaceOfWord(s[..n]);
      assert Words(s) == [s[..n]] + Words(s[n..]);
      assert ([s[..n]] + Words(s[n..]))[1..] == Words(s[n..]);
    }
  }

  /** A run of non-space characters ends where the following whitespace starts. */
  lemma {:induction false} WordLengthStopsAtSpace(a: string, t: string)
    requires a != [] && !IsSpace(a[0]) && t != [] && IsSpace(t[0])
    ensures WordLength(a + t) == WordLength(a)
    decreases |a|
  {
    if |a| > 1 && !IsSpace(a[1]) {
      assert (a + t)[1..] == a[1..] + t;
      WordLengthStopsAtSpace(a[1..], t);
    }
  }

  /** A non-empty string without whitespace is a single token. */
  lemma WordsOfWord(w: string)
    requires w != [] && NoSpace(w)
    ensures Words(w) == [w]
  {
    var n := WordLength(w);
    assert n == |w|;
    assert w[..n] == w && w[n..] == [];
  }

  /**
   * A whitespace character separates tokens: the tokens of `a`, a space and
   * `b` are those of `a` followed by those of `b`. With WordsOfWord and
   * `Words([]) == []` this fixes the tokens of every string.
   */
  lemma {:induction false} WordsOfJoin(a: string, c: char, b: string)
    requires IsSpace(c)
    ensures Words(a + [c] + b) == Words(a) + Words(b)
    decreases |a|
  {
    var s := a + [c] + b;
    if a == [] {
      assert s[1..] == b;
    } else if IsSpace(a[0]) {
      assert s[1..] == a[1..] + [c] + b;
      WordsOfJoin(a[1..], c, b);
    } else {
      var m := WordLength(a);
      assert s == a + ([c] + b);
      WordLengthStopsAtSpace(a, [c] + b);
      assert s[..m] == a[..m];
      assert s[m..] == a[m..] + [c] + b;
      WordsOfJoin(a[m..], c, b);
      assert Words(a) == [a[..m]] + Words(a[m..]);
    }
  }

  /** `s.rstrip(cs)`: drop every trailing character that belongs to `cs`. */
  function RStrip(s: string, cs: set<char>): (r: string)
    ensures r <= s
    ensures r == [] || r[|r| - 1] !in cs
    ensures forall i :: |r| <= i < |s| ==> s[i] in cs
  {
    if s != [] && s[|s| - 1] in cs then RStrip(s[..|s| - 1], cs) else s
  }

  /** `s.startswith(p)`. */
  predicate StartsWith(s: string, p: string)
  {
    p <= s
  }

  /** `c.lower()` for the ASCII letters; other characters are kept. */
  function LowerChar(c: char): char
  {
    if 'A' <= c <= 'Z' then (c as int + 32) as char else c
  }

  /** `s.lower()`, one character at a time. */
  function Lower(s: string): (r: string)
    ensures |r| == |s|
    ensures forall i :: 0 <= i < |r| ==> !('A' <= r[i] <= 'Z')
    ensures forall i :: 0 <= i < |s| && !('A' <= s[i] <= 'Z') ==> r[i] == s[i]
  {
    seq(|s|, i requires 0 <= i < |s| => LowerChar(s[i]))
  }
}

=== FILE: schedule_page.dfy ===
/** The calendar-question page: send a question to the calendar agent and show its answer. */
module SchedulePage {
  import opened Options

  datatype Request = CalendarQuestion(body: map<string, string>)   // POST /calendar, JSON of the form state

  /**
   * How the request ends: fetch or the body read threw, the status was not
   * ok, or the body was read; `output` is `result.response.output`, None when
   * the body has no `response` object (reading `.output` then throws).
   */
  datatype CalendarOutcome = Thrown | NotOk | OkBody(output: Option<string>)

  class CalendarPage {
    var response: string
    var loading: bool
    var formData: map<string, string>
    var requests: seq<Request>

    constructor ()
      ensures response == "" && !loading && requests == []
      ensures formData == map["question" := ""]
    {
      response := "";
      loading := false;
      formData := map["question" := ""];
      requests := [];
    }

    /** Editing sets only the named field. */
    method HandleChange(name: string, value: string)
      modifies this
      ensures formData == old(formData)[name := value]
      ensures response == old(response) && loading == old(loading) && requests == old(requests)
    {
      formData := formData[name := value];
    }

    /**
     * Submit: the spinner goes on and the response is cleared; the body is
     * the form state. Only a read ok body turns the spinner off, and only one
     * with an output sets the response; a non-ok status or a throw leaves the
     * spinner on.
     */
    method HandleSubmit(outcome: CalendarOutcome)
      modifies this
      ensures formData == old(formData)
      ensures requests == old(requests) + [CalendarQuestion(old(formData))]
      ensures loading <==> !outcome.OkBody?
      ensures response == if outcome.OkBody? && outcome.output.Some? then outcome.output.value else ""
    {
      loading := true;
      response := "";
      requests := requests + [CalendarQuestion(formData)];
      match outcome {
        case OkBody(output) =>
          loading := false;
          match output {
            case Some(text) => response := text;
            case None =>
          }
        case NotOk =>
        case Thrown =>
      }
    }
  }
}

=== FILE: server.dfy ===
/**
 * Request shaping in the backend's HTTP handlers: the text a `/chat` upload
 * yields, the instruction an action code selects, the prompt sent to the
 * model, how the model's HTTP reply becomes the handler's JSON, and the
 * result list of `/upload`. PDF page text, UTF-8 decoding, the model call
 * and document ingestion are parameters.
 */
module Server {
  import opened Options
  import opened PyText

  const PdfContentType: string := "application/pdf"

  const ParagraphInstruction: string := "Summarize the text as a paragraph."
  const BulletsInstruction: string := "Summarize major points of the text. Style each paragraph as a bullet like • ."
  const ConceptsInstruction: string := "List major terms and provide definitions for each term from the text."
  const QuizInstruction: string := "Write 10 quiz questions based on the text provided. Write answers underneath the question block. The questions and the answers must be numbered like QUESTIONS Q1:  and ANSWERS A1:  "

  /** The action codes that select something other than the quiz. */
  const NamedActions: set<string> := {"summarize-paragraph", "summarize-bullets", "list-concepts"}

  const QuestionSeparator: string := "\n\nUser Question: "

  const RetryMessage: string := "Too many requests. Please retry in 60 minutes."

  /** The instruction an action code selects; every unnamed code, "" and "quiz-me" included, gets the quiz. */
  function ActionInstruction(action: string): (r: string)
    ensures action == "summarize-paragraph" ==> r == ParagraphInstruction
    ensures action == "summarize-bullets" ==> r == BulletsInstruction
    ensures action == "list-concepts" ==> r == ConceptsInstruction
    ensures r == QuizInstruction <==> action !in NamedActions
  {
    if action == "summarize-paragraph" then ParagraphInstruction
    else if action == "summarize-bullets" then BulletsInstruction
    else if action == "list-concepts" then ConceptsInstruction
    else QuizInstruction
  }

  /** Distinct named actions select distinct instructions. */
  lemma ActionInstructionSeparatesNamedActions(a: string, b: string)
    requires a in NamedActions && a != b
    ensures ActionInstruction(a) != ActionInstruction(b)
  {
    assert |ParagraphInstruction| != |BulletsInstruction|;
    assert |ParagraphInstruction| != |ConceptsInstruction|;
    assert |BulletsInstruction| != |ConceptsInstruction|;
  }

  /** The prompt: the file text, the separator, the instruction, and nothing else. */
  function FullPrompt(text: string, instruction: string): (r: string)
    ensures |r| == |text| + |QuestionSeparator| + |instruction|
    ensures r[..|text|] == text
    ensures r[|text|..|text| + |QuestionSeparator|] == QuestionSeparator
    ensures r[|text| + |QuestionSeparator|..] == instruction
  {
    text + QuestionSeparator + instruction
  }

  /** Two prompts with file texts of one length are equal only for equal texts and instructions. */
  lemma FullPromptSplitsBack(t1: string, i1: string, t2: string, i2: string)
    requires |t1| == |t2| && FullPrompt(t1, i1) == FullPrompt(t2, i2)
    ensures t1 == t2 && i1 == i2
  {
    var p := FullPrompt(t1, i1);
    assert t1 == p[..|t1|] == t2;
    assert i1 == p[|t1| + |QuestionSeparator|..] == i2;
  }

  lemma {:induction false} ConcatAppend(pages: seq<string>, page: string)
    ensures Concat(pages + [page]) == Concat(pages) + page
    decreases |pages|
  {
    if pages == [] {
      assert [] + [page] == [page];
    } else {
      assert (pages + [page])[1..] == pages[1..] + [page];
      ConcatAppend(pages[1..], page);
    }
  }

  /** `extract_text_from_pdf`: the page texts, concatenated in page order. */
  method ExtractPdfText(pages: seq<string>) returns (text: string)
    ensures text == Concat(pages)
  {
    text := "";
    var i := 0;
    while i < |pages|
      invariant 0 <= i <= |pages|
      invariant text == Concat(pages[..i])
    {
      ConcatAppend(pages[..i], pages[i]);
      assert pages[..i + 1] == pages[..i] + [pages[i]];
      text := text + pages[i];
      i := i + 1;
    }
    assert pages[..|pages|] == pages;
  }

  /** How the model's endpoint answers: unreachable, or a status and the first candidate's text if the body has one. */
  datatype ModelReply = Unreachable | Status(code: int, firstText: Option<string>)

  /** The JSON `/chat` returns: `{"response": ...}` or `{"error": str(e)}`. */
  datatype ChatReply = Response(text: string) | Error

  /** `raise_for_status`: a client error (4xx) or a server error (5xx) raises. */
  function IsHttpError(code: int): (r: bool)
    ensures r <==> code / 100 in {4, 5}
  {
    (400 <= code < 500) || (500 <= code < 600)
  }

  /**
   * `/chat`: `pdfPages` are the page texts of a PDF upload, `decoded` the
   * upload decoded as UTF-8; returns the prompt sent to the model and the reply.
   */
  method ChatWithGemini(contentType: string, pdfPages: seq<string>, decoded: string, action: string, model: ModelReply)
    returns (prompt: string, reply: ChatReply)
    ensures prompt == FullPrompt(if contentType == PdfContentType then Concat(pdfPages) else decoded, ActionInstruction(action))
    ensures model.Status? && model.code == 429 ==> reply == Response(RetryMessage)
    ensures reply.Response? && reply.text != RetryMessage ==>
      model.Status? && model.code != 429 && !IsHttpError(model.code) && model.firstText == Some(reply.text)
    ensures model.Status? && model.code != 429 && !IsHttpError(model.code) && model.firstText.Some? ==>
      reply == Response(model.firstText.value)
    ensures reply == Error <==>
      model.Unreachable? || (model.code != 429 && (IsHttpError(model.code) || model.firstText.None?))
  {
    var textFromFile: string;
    if contentType == PdfContentType {
      textFromFile := ExtractPdfText(pdfPages);
    } else {
      textFromFile := decoded;
    }
    var actionText := ActionInstruction(action);
    prompt := FullPrompt(textFromFile, actionText);
    match model {
      case Unreachable =>
        reply := Error;
      case Status(code, firstText) =>
        if code == 429 {
          return prompt, Response(RetryMessage);
        }
        if IsHttpError(code) {
          return prompt, Error;
        }
        if firstText.None? {
          return prompt, Error;
        }
        reply := Response(firstText.value);
    }
  }

  /** The JSON `/upload` returns. */
  datatype UploadReply = UploadReply(status: string, message: seq<string>)

  /** `/upload`: ingest each file in turn and report one message per file, in upload order. */
  method UploadAgent<F>(files: seq<F>, ingest: F -> string) returns (reply: UploadReply)
    ensures reply.status == "success"
    ensures |reply.message| == |files|
    ensures forall i :: 0 <= i < |files| ==> reply.message[i] == ingest(files[i])
  {
    var results: seq<string> := [];
    var i := 0;
    while i < |files|
      invariant 0 <= i <= |files|
      invariant |results| == i
      invariant forall j :: 0 <= j < i ==> results[j] == ingest(files[j])
    {
      var message := ingest(files[i]);
      results := results + [message];
      i := i + 1;
    }
    reply := UploadReply("success", results);
  }
}

=== FILE: upload_page.dfy ===
/**
 * The multi-file upload page: selecting files uploads them at once, a
 * question is then asked over what was uploaded, and the answer can be
 * copied to the clipboard with a two-second "copied" badge.
 */
module UploadPage {
  import opened Options
  import opened WebTypes

  datatype Request =
    | Upload(body: seq<Entry>)               // POST /upload, multipart
    | Ask(question: map<string, string>)       // POST /upload/ask, JSON of the form state

  /** How long the "copied" badge stays up, in milliseconds. */
  const CopiedMillis: int := 2000

  /** The multipart body of an upload: every file, in order, under "files". */
  method BuildUploadBody(files: seq<FileHandle>) returns (body: seq<Entry>)
    ensures |body| == |files|
    ensures forall i :: 0 <= i < |files| ==> body[i] == Entry("files", Blob(files[i]))
  {
    body := [];
    var i := 0;
    while i < |files|
      invariant 0 <= i <= |files|
      invariant |body| == i
      invariant forall j :: 0 <= j < i ==> body[j] == Entry("files", Blob(files[j]))
    {
      body := body + [Entry("files", Blob(files[i]))];
      i := i + 1;
    }
  }

  class UploadSession {
    var response: string
    var loading: bool
    var uploaded: bool
    var copied: bool
    var uploadedFiles: seq<FileHandle>
    var formData: map<string, string>
    var requests: seq<Request>
    /** Due times, in order, of the timers that will clear `copied`. */
    var copyResets: seq<int>

    constructor ()
      ensures response == "" && !loading && !uploaded && !copied
      ensures uploadedFiles == [] && formData == map["question" := ""]
      ensures requests == [] && copyResets == []
    {
      response := "";
      loading := false;
      uploaded := false;
      copied := false;
      uploadedFiles := [];
      formData := map["question" := ""];
      requests := [];
      copyResets := [];
    }

    /** Editing the question sets only the named field. */
    method HandleChangeRequest(name: string, value: string)
      modifies this
      ensures formData == old(formData)[name := value]
      ensures response == old(response) && loading == old(loading) && uploaded == old(uploaded)
      ensures uploadedFiles == old(uploadedFiles) && requests == old(requests)
      ensures copied == old(copied) && copyResets == old(copyResets)
    {
      formData := formData[name := value];
    }

    /**
     * A file selection (`files` is None when the input has no FileList):
     * `uploaded` drops first; a selection replaces the tracked files
     * wholesale; every selected file is uploaded in one request, and only a
     * successful reply sets `uploaded`.
     */
    method HandleChangeUpload(files: Option<seq<FileHandle>>, outcome: Outcome<()>)
      modifies this
      ensures uploaded == outcome.Ok?
      ensures uploadedFiles == if files.Some? then files.value else old(uploadedFiles)
      ensures var selected := if files.Some? then files.value else [];
        && |requests| == |old(requests)| + 1
        && requests[..|old(requests)|] == old(requests)
        && requests[|old(requests)|].Upload?
        && |requests[|old(requests)|].body| == |selected|
        && forall i :: 0 <= i < |selected| ==> requests[|old(requests)|].body[i] == Entry("files", Blob(selected[i]))
      ensures response == old(response) && loading == old(loading) && formData == old(formData)
      ensures copied == old(copied) && copyResets == old(copyResets)
    {
      uploaded := false;
      if files.Some? {
        uploadedFiles := files.value;
      }
      var body := BuildUploadBody(if files.Some? then files.value else []);
      requests := requests + [Upload(body)];
      if outcome.Ok? {
        uploaded := true;
      }
    }

    /**
     * Ask a question over the uploads. The previous answer stays until the
     * new one arrives; on failure the spinner stays on.
     */
    method HandleSubmitAsk(outcome: Outcome<string>)
      modifies this
      ensures requests == old(requests) + [Ask(old(formData))]
      ensures outcome.Ok? ==> response == outcome.value && !loading
      ensures outcome.Fail? ==> response == old(response) && loading
      ensures uploaded == old(uploaded) && uploadedFiles == old(uploadedFiles) && formData == old(formData)
      ensures copied == old(copied) && copyResets == old(copyResets)
    {
      loading := true;
      requests := requests + [Ask(formData)];
      match outcome {
        case Ok(answer) =>
          response := answer;
          loading := false;
        case Fail =>
      }
    }

    /**
     * Copy the rendered answer at time `now`: when there is rendered text and
     * the clipboard write resolves, the badge goes up and a reset is due
     * 2000 ms later.
     */
    method HandleCopy(now: int, rendered: bool, written: Outcome<()>)
      modifies this
      ensures rendered && written.Ok? ==> copied && copyResets == old(copyResets) + [now + CopiedMillis]
      ensures !(rendered && written.Ok?) ==> copied == old(copied) && copyResets == old(copyResets)
      ensures response == old(response) && loading == old(loading) && uploaded == old(uploaded)
      ensures uploadedFiles == old(uploadedFiles) && formData == old(formData) && requests == old(requests)
    {
      if rendered && written.Ok? {
        copied := true;
        copyResets := copyResets + [now + CopiedMillis];
      }
    }

    /** The first scheduled pending copy timer fires and takes the badge down; returns its due time. */
    method CopyTimerFires() returns (due: int)
      requires copyResets != []
      modifies this
      ensures !copied
      ensures due == old(copyResets[0]) && copyResets == old(copyResets[1..])
      ensures response == old(response) && loading == old(loading) && uploaded == old(uploaded)
      ensures uploadedFiles == old(uploadedFiles) && formData == old(formData) && requests == old(requests)
    {
      due := copyResets[0];
      copyResets := copyResets[1..];
      copied := false;
    }
  }
}

=== FILE: web_types.dfy ===
/**
 * Shapes shared by the browser pages: the outcome of awaiting a request,
 * files picked in an <input>, the values a page keeps in its form-state
 * object, and the entries of a multipart FormData body.
 */
module WebTypes {

  /**
   * The outcome of `await fetch(...)` followed by `await response.json()`:
   * Ok when both resolved (whatever the HTTP status), Fail when either threw.
   */
  datatype Outcome<+T> = Ok(value: T) | Fail

  /** A File object picked by the user. */
  datatype FileHandle = FileHandle(name: string, contentType: string, size: nat)

  /** A value stored under a key of a page's form-state object. */
  datatype FormValue = Null | Text(s: string) | FileRef(file: FileHandle)

  /** JavaScript truthiness of a form value: null and "" are falsy, a File is truthy. */
  predicate Truthy(v: FormValue)
  {
    match v
    case Null => false
    case Text(s) => s != ""
    case FileRef(_) => true
  }

  /** What FormData.append stores: a Blob stays a Blob, anything else becomes its string. */
  datatype Part = Blob(file: FileHandle) | Str(s: string)

  function AsPart(v: FormValue): (p: Part)
    ensures p.Blob? <==> v.FileRef?
    ensures v.Text? ==> p == Str(v.s)
  {
    match v
    case Null => Str("null")
    case Text(s) => Str(s)
    case FileRef(f) => Blob(f)
  }

  /** One `append(name, value)` of a multipart body. */
  datatype Entry = Entry(name: string, part: Part)

  /**
   * The fields a change handler reads from `e.target`: the input's type,
   * its FileList (empty when none), its name and its value.
   */
  datatype InputEvent = InputEvent(kind: string, files: seq<FileHandle>, name: string, value: string)

  /** `type === "file" && files?.[0]`: a file input with at least one file. */
  predicate PicksFile(e: InputEvent)
  {
    e.kind == "file" && e.files != []
  }
}
